=== FILE: README.md ===
# Task service request pipeline, in Dafny

A model of the request-to-storage pipeline of a small task CRUD service
written in Go: the HTTP handlers that map errors to status codes, the domain
service that parses ids, page and limit and applies the status and pagination
rules, and the repository that runs one statement against the `tasks` table.
The table is an abstract map from id to task plus the id sequence; every
operation is a pure function that takes the table and returns the result
together with the table after it.

Files, one module each:

- `models.dfy` (`Models`): the task record, the error kinds, `Option` and `Result`.
- `decimal.dfy` (`Decimal`): `strconv.ParseUint(s, 10, 64)` as a reference
  function, the digit loop of the Go library in uint64 arithmetic proved
  equal to it, and the decimal rendering it inverts.
- `repository.dfy` (`Repository`): the table, its invariant, and the five
  statements (insert, select by id, delete, update, paged select by id
  descending).
- `service.dfy` (`Service`): the five service operations and their parsing,
  status and pagination rules.
- `handler.dfy` (`Handler`): the error-to-response mapping of each handler,
  the handlers composed end to end, and the error table the handlers' API
  annotations document (`@Failure` lines, handler.go:48-49, 81-83, 116-118,
  156-158, 191-193) as a reference to compare against.

Inputs the Go code takes from its environment are parameters: `now` is the
service's `time.Now()`, `dbNow` is the value the database gives the
`updated_at` column on insert (an assumed column default: the insert at
internal/repository/repository.go:24-38 leaves that column out and the table
schema is not part of this model), `failure` is the error the database
driver or the request deadline produces for a statement (absent when the
statement runs normally), `cut` is the point at which the row stream of the
paged select breaks, if it does, and `Decoded`/`Malformed` is the outcome of
`BodyParser`. A request that is refused before the repository is reached
returns the table unchanged and a result that depends on neither the table
nor `failure`.

The table invariant `Repository.Valid` (every row filed under its own id, the
sequence ahead of every id in use) holds of the empty table
(`Repository.EmptyIsValid`) and every operation that changes the table, at
every layer, keeps it, so the operations that require it exclude no table
the service can reach.

Where the code's own documentation (its API annotations, error sentinels and
declared types) and its behaviour disagree, the model follows the behaviour:

- The update handler has no case for an invalid status, so an invalid status
  is answered with 500, not 400 as the handler's own API annotation
  ("Invalid input or task ID", handler.go:116) has it
  (`Handler.UpdateMatchesAnnotationsExceptStatus`).
- The create handler answers every service error, including a storage
  failure, with 400 and the message "Uknown error occured while creating the
  task", although its API annotation documents that message with 500
  (handler.go:49)
  (`Handler.CreateDepartsFromAnnotation`).
- An id is any uint64 the parser accepts, "0" and "007" included, not only a
  positive integer.
- The service refers to an `ErrInvalidStatus` sentinel that the models
  package never declares; the model adds it as a fifth error kind. Its
  message is not fixed by the code and never reaches a response body.
- The request and response types declare ids as `int64` and lack the fields
  the service fills; the model follows the data flow the service code
  expresses (uint64 ids parsed from the path, the task record in the read
  response).

## Model

| member | source | states |
|---|---|---|
| Models.Message | internal/models/errors.go:6-9 | The text of each sentinel error is its non-empty fixed message ("page number is invalid", "limit number is invalid", "task id is invalid", "nothing was found"); any other error carries its own text |
| Models.SentinelMessagesDistinct | internal/models/errors.go:6-9 | No two sentinel errors share a message, so a 400 or 404 body names which rule was broken |
| Decimal.ParseUint | internal/service/service.go:53-56 | The id parser rejects exactly the empty string, any string holding a character other than an ASCII digit, and any digit string whose value passes 2^64 - 1; whatever it accepts is at most 2^64 - 1 |
| Decimal.ParseUint64 | internal/service/service.go:53-56 | The overflow-checked digit loop (syntax error on a non-digit, range error once the value passes 2^64 - 1) accepts exactly the non-empty digit strings of value at most 2^64 - 1 and returns their value, for every string |
| Decimal.ParseFormat | internal/service/service.go:62-65 | Every uint64 id, written in decimal, parses back to itself |
| Decimal.ParseIsCanonical | internal/service/service.go:108-111 | Whatever the id parser accepts is at most 2^64 - 1 and is the decimal rendering of the parsed value preceded only by zeros (signs, letters and other characters are never accepted) |
| Repository.CreateTask | internal/repository/repository.go:24-38 | Insert adds exactly one row under an id taken from the sequence (at least its old value and below its new one, so never issued before), with the given title, description, status and created_at and the column-default updated_at, keeps every other row, keeps the table invariant, and on a storage failure changes nothing and returns that failure |
| Repository.GetTaskByID | internal/repository/repository.go:41-65 | Select by id returns the stored row exactly when the id is present, NotFound when it is absent, and a storage failure unchanged |
| Repository.DeleteTask | internal/repository/repository.go:68-86 | Delete succeeds exactly when the id is present and then removes only that row; zero rows affected is NotFound with the table unchanged |
| Repository.UpdateTask | internal/repository/repository.go:130-154 | Update succeeds exactly when the id is present; it replaces title, description, status and updated_at of that row only, keeping its id and created_at, the other rows and the set of ids; zero rows affected is NotFound with the table unchanged |
| Repository.EmptyIsValid | internal/repository/repository.go:24-38 | The empty table, whose id sequence starts at 1, satisfies the table invariant that every insert, update and delete keeps |
| Repository.Descending | internal/repository/repository.go:88-94 | The scan order lists every stored id, and only stored ids, strictly descending |
| Repository.Window | internal/repository/repository.go:91-93 | LIMIT/OFFSET keeps at most limit entries, the i-th being entry offset + i of the ordered list, and nothing once the offset passes the end |
| Repository.GetTasks | internal/repository/repository.go:88-128 | The corrected paged select: a query or scan failure, and a row stream that breaks before the page is complete, are reported as failures; otherwise NotFound exactly when offset passes the last row or limit is 0; a success is the whole page (PageSize rows, between 1 and limit) of stored rows in strictly descending id order |
| Repository.GetTasksAsWritten | internal/repository/repository.go:107-127 | The paged select as written: the rows read before the stream breaks are the answer, so a break is never reported; a failure of the query or of a scan passes through, every other error is NotFound, and a success is between 1 and PageSize stored rows in strictly descending id order |
| Repository.StreamBreakIsSwallowed | internal/repository/repository.go:107-127 | With an unbroken stream the code as written and the corrected select agree; with a break before the page is complete the corrected select reports the failure, while the code as written answers NotFound exactly when the break precedes the first row and otherwise a success with only the rows read |
| Repository.ShortPageExample | internal/repository/repository.go:107-127 | On a two-row table a stream breaking after one row gives a one-row success as written (the full page has two rows), a break before the first row gives NotFound, and the corrected select reports the failure |
| Repository.GetTasksIsPage | internal/repository/repository.go:88-127 | A page is empty (NotFound) exactly when offset is past the last row or limit is 0; otherwise it holds min(limit, rows - offset) rows, the i-th having exactly offset + i larger ids stored, and every row whose descending position lies in [offset, offset + limit) |
| Repository.IdsNeverReissued | internal/repository/repository.go:24-86 | Creating a task, deleting it and creating another never hands out the first id again |
| Repository.UnbrokenStreamIsUncut | internal/repository/repository.go:107-127 | A stream that does not break before the page is complete gives the same answer as no break, and every success of the corrected select is the unbroken page |
| Repository.DeleteTwice | internal/repository/repository.go:68-86 | Deleting a stored id succeeds and deleting it again is NotFound |
| Repository.CreateThenGet | internal/repository/repository.go:24-38 | The id an insert returns reads back as the inserted title, description, status and created_at |
| Repository.UpdateThenGet | internal/repository/repository.go:130-154 | After an update the row reads back with the new title, description, status and updated_at and its old id and created_at |
| Service.IsValidStatus | internal/service/service.go:113 | A status is accepted exactly when it is one of "new", "in_progress" and "done", compared exactly |
| Service.CreateTask | internal/service/service.go:35-50 | Create always stores status "new" and created_at = now, reports the fresh id with status "new" and the same now, leaves every row already stored as it was, keeps the table invariant and the all-statuses-valid invariant, and passes a storage failure through with the table unchanged |
| Service.DeleteTask | internal/service/service.go:52-59 | A malformed id is FailedToParseID with the table untouched, and FailedToParseID arises only from a malformed id; for a parsed id a storage failure passes through unchanged, and otherwise the task is deleted exactly when stored and NotFound is returned when it is absent; success removes only that row, any failure leaves the table unchanged, and the id sequence never moves |
| Service.GetTaskByID | internal/service/service.go:61-75 | FailedToParseID exactly when the id string does not parse; for a parsed id a storage failure passes through unchanged, and otherwise the stored task is returned exactly when present and NotFound when absent |
| Service.Normalise | internal/service/service.go:88-93 | Page 0 becomes 1 and limit 0 becomes the default 10; a page or limit that is already at least 1 is kept, so both are at least 1 afterwards |
| Service.QueryValue | internal/service/service.go:78-86 | An empty page or limit string reads as 0; a non-empty one is rejected exactly when the id parser rejects it and otherwise has the parser's value, at most 2^64 - 1 |
| Service.Offset | internal/service/service.go:95 | The offset is a uint64 and equals (page - 1) * limit whenever that product fits in 64 bits; page is at least 1, so the subtraction never wraps |
| Service.GetTasks | internal/service/service.go:77-105 | Composed with the corrected paged select: a non-empty page that does not parse is FailedToParsePage; FailedToParseLimit arises exactly when page is empty or parses and limit is non-empty and does not parse; with both accepted a storage failure passes through, a stream that breaks before the selected rows have arrived is a failure, and otherwise the result is NotFound exactly when the normalised uint64 offset reaches the number of rows; a success holds exactly the selected number of stored tasks, the i-th at descending position offset + i |
| Service.UpdateTask | internal/service/service.go:107-124 | A malformed id is FailedToParseID, and with a parsed id a status outside new/in_progress/done is InvalidStatus, both with the table untouched; for a valid request a storage failure passes through, and otherwise the update succeeds exactly when the path id is stored and is NotFound when it is absent; success rewrites only title, description, status and updated_at = now of the task named by the path id; the id sequence never moves and all invariants are kept |
| Service.NormaliseIdempotent | internal/service/service.go:88-93 | Normalising normalised values changes nothing |
| Service.OffsetWraps | internal/service/service.go:95 | The uint64 product wraps: page 2^63 + 1 with limit 2 gives offset 0, the first page |
| Service.GetTasksDefaults | internal/service/service.go:77-95 | Page and limit both empty fetch limit 10 at offset 0, the same as "1"/"10" and as "0"/"0"; page "0" with limit "5" fetches limit 5 at offset 0 |
| Service.GetTasksReturnsRequestedPage | internal/service/service.go:77-105 | For page p and limit l written in decimal (without offset wrap), with no storage failure and an unbroken row stream, every error is NotFound, NotFound arises exactly when (p - 1) * l reaches the number of rows, and otherwise the result holds exactly the tasks at descending positions (p - 1) * l to (p - 1) * l + l - 1, in that order |
| Service.IdCheckedBeforeStatus | internal/service/service.go:107-115 | A malformed id together with a bad status yields FailedToParseID |
| Service.UpdateIgnoresBodyId | internal/service/service.go:117-123 | The id carried in the update body has no effect on the outcome |
| Service.CreateThenGet | internal/service/service.go:35-75 | A created task, read back by the decimal form of its id, has the given title and description, status "new" and created_at = now |
| Service.DeleteTwice | internal/service/service.go:52-59 | Deleting the same id string twice yields success, then NotFound |
| Handler.RespondCreate | internal/delivery/http/v1/handler/handler.go:62-71 | Create success is 201 with the service's response; every service error is 400 with a fixed message |
| Handler.RespondGetTaskByID | internal/delivery/http/v1/handler/handler.go:91-104 | 200 with the task exactly on success, 400 exactly for FailedToParseID and 404 exactly for NotFound (both carrying the error's message), 500 with a fixed message for every other error |
| Handler.RespondUpdate | internal/delivery/http/v1/handler/handler.go:132-146 | 200 exactly on success, 400 exactly for FailedToParseID, 404 exactly for NotFound (with the error's message), 500 with a fixed message for every other error, InvalidStatus included |
| Handler.RespondDelete | internal/delivery/http/v1/handler/handler.go:166-180 | 200 exactly on success, 400 exactly for FailedToParseID, 404 exactly for NotFound (with the error's message), 500 with a fixed message otherwise |
| Handler.RespondGetTasks | internal/delivery/http/v1/handler/handler.go:202-215 | 200 with the list exactly on success, 400 exactly for FailedToParsePage or FailedToParseLimit, 404 exactly for NotFound (with the error's message), 500 with a fixed message otherwise |
| Handler.CreateTask | internal/delivery/http/v1/handler/handler.go:51-72 | An undecodable body is 400 with the table untouched; 201 exactly when the body decodes and storage does not fail, and then the response carries status "new", created_at = now and an id that was free, which now holds the given title and description with status "new", while every other row stays as it was; any other outcome is 400 with the table untouched |
| Handler.GetTaskByID | internal/delivery/http/v1/handler/handler.go:85-105 | 400 exactly for an id that does not parse, 404 exactly for a parsed id not stored, 500 exactly on a storage failure; a parsed, stored id without failure is 200 with the stored task, and a 200 only ever carries that task |
| Handler.UpdateTask | internal/delivery/http/v1/handler/handler.go:120-147 | 400 exactly for an undecodable body or an unparsable id; 500 exactly for an invalid status or a storage failure; 404 exactly for a valid request naming an absent id; a valid request naming a stored id without failure is 200; only a 200 changes the table, and then the new table is the old one with only the named task's title, description, status and updated_at replaced; the id sequence never moves and the table invariant is kept |
| Handler.DeleteTask | internal/delivery/http/v1/handler/handler.go:160-181 | 400 exactly for an unparsable id, 404 exactly for a parsed id not stored, 500 exactly on a storage failure; a parsed, stored id without failure is 200; only a 200 changes the table, removing just that task; the id sequence never moves and the table invariant is kept |
| Handler.GetTasks | internal/delivery/http/v1/handler/handler.go:195-216 | Composed with the corrected paged select: 400 exactly when a non-empty page or limit does not parse; 500 exactly on a storage failure or a broken row stream with both accepted; 404 exactly when both are accepted, storage does not fail and the normalised uint64 offset reaches the number of rows; 200 exactly in the remaining case, with the selected number of stored tasks, each as stored, the i-th at descending position offset + i |
| Handler.ReadDeleteListMatchAnnotations | internal/delivery/http/v1/handler/handler.go:81-83 | For every error their services can produce, read-one, delete and list answer with the code their API annotations document (handler.go:81-83, 156-158, 191-193) |
| Handler.UpdateMatchesAnnotationsExceptStatus | internal/delivery/http/v1/handler/handler.go:116-118 | Update answers FailedToParseID, NotFound and storage failures with the codes its API annotation documents, but InvalidStatus ("Invalid input", annotated 400) with 500 (handler.go:133-141) |
| Handler.CreateDepartsFromAnnotation | internal/delivery/http/v1/handler/handler.go:48-49 | Create answers a storage failure with 400, where its API annotation documents 500 (handler.go:63-67) |
| Handler.InternalErrorsAreOpaque | internal/delivery/http/v1/handler/handler.go:98-100 | The text of an unclassified error never reaches the client: any two such errors produce the same response in every handler |
| Handler.LifecycleScenario | internal/delivery/http/v1/handler/handler.go:51-181 | On an empty table: create "A"/"B" is 201 with id 1 and status "new"; reading id 1 is 200 with that task; updating it to status "bogus" is 500 and changes nothing; deleting it is 200; reading it again is 404 "nothing was found" |

## Left out

- HTTP plumbing: routing, CORS, the swagger endpoints, JSON encoding and the
  Fiber context. Handlers take the decoded body (or its failure) and the path
  and query strings, and return a status code and a structured body.
- Logging: side effects only; no result depends on it.
- Request timeouts and concurrency between requests: a timed-out or failing
  statement is the `failure` parameter (and, for the paged select, a broken
  row stream is `cut`); requests are modelled one at a time.
- SQL text generation and row scanning: replaced by the abstract table. A scan
  error is one more kind of `failure`.
- The `updated_at` default: the model assumes the table fills `updated_at`
  on insert. Without such a default a never-updated row would hold NULL,
  its scan into a time value would fail, and the program would answer 500
  where the model reads the row.
- Clocks: `now` and `dbNow` are parameters. The rule that
  `updated_at` is never before `created_at` is not proved: the two come from
  different clocks (the service's on update, the database default on
  insert), and the code does nothing to order them.
- Id width: ids in the table are unbounded naturals. The sequence is a
  counter that starts at 1 and is not advanced by a failed insert; the
  table's schema is not part of this model. The round-trip lemmas require the
  id to fit in a uint64.
- Limits and offsets above 2^63 - 1, which PostgreSQL's bigint would reject,
  are treated as ordinary numbers by the paged select.
- Service.CreateTask: the Go service returns its response object alongside a
  storage error; its only caller ignores the response in that case, so the
  model returns the error alone.
- Service.GetTasks: it is composed with the corrected paged select
  (Repository.GetTasks), so a row stream that breaks before the page is
  complete is a failure here, where the program answers NotFound or a short
  page (see Findings; the program's own select is
  Repository.GetTasksAsWritten).
- Handler.GetTasks: for the same reason a broken row stream is 500 here,
  where the program answers 404 (break before the first row) or 200 with
  a short page.
- Repository.GetTaskByID: ids from 2^63 to 2^64 - 1 parse, but the database
  driver rejects them as bigint parameters, which the program answers as a
  storage failure (500); the model looks them up like any other id and so
  answers NotFound (404).
- Repository.UpdateTask: the same holds for update, whose ids from 2^63 to
  2^64 - 1 are a driver error in the program and NotFound in the model.
- Repository.DeleteTask: the same holds for delete, whose ids from 2^63 to
  2^64 - 1 are a driver error in the program and NotFound in the model.

## Findings

| source | as written | input that shows it | evidently intended | confidence | as-written member | corrected member |
|---|---|---|---|---|---|---|
| internal/repository/repository.go:107-127 | The loop over `rows.Next()` ends silently when the row stream breaks and `rows.Err()` is never consulted, so the rows read so far are returned as the page | A table with ids 1 and 2, limit 10, offset 0, and the request deadline or the connection ending the stream after one row: the answer is 200 with only task 2; ending it before the first row gives 404 | A broken stream is reported as a failure (500), and a success is always the whole page | not executed | Repository.GetTasksAsWritten (shown by Repository.StreamBreakIsSwallowed and Repository.ShortPageExample) | Repository.GetTasks |

=== FILE: decimal.dfy ===
/** Decimal parsing of unsigned 64-bit integers with the semantics of Go's
    `strconv.ParseUint(s, 10, 64)`: a non-empty run of ASCII digits, no sign,
    no underscores, leading zeros allowed, value at most 2^64 - 1. The service
    uses it for task ids and for the page and limit query parameters. */
module Decimal {
  import opened Models

  /** The largest uint64, the bound `ParseUint(s, 10, 64)` enforces. */
  const MaxUint64: nat := 0xFFFF_FFFF_FFFF_FFFF

  /** 2^64: uint64 arithmetic is arithmetic modulo this number. */
  const Modulus: nat := 0x1_0000_0000_0000_0000

  predicate IsDigit(c: char) {
    '0' <= c <= '9'
  }

  predicate AllDigits(s: string) {
    forall i :: 0 <= i < |s| ==> IsDigit(s[i])
  }

  function DigitValue(c: char): (d: nat)
    requires IsDigit(c)
    ensures d < 10
  {
    c as int - '0' as int
  }

  function DigitChar(d: nat): (c: char)
    requires d < 10
    ensures IsDigit(c) && DigitValue(c) == d
  {
    ('0' as int + d) as char
  }

  /** The number a digit string denotes, most significant digit first. */
  function Value(s: string): nat
    requires AllDigits(s)
  {
    if |s| == 0 then 0 else Value(s[..|s| - 1]) * 10 + DigitValue(s[|s| - 1])
  }

  /** `strconv.ParseUint(s, 10, 64)`, with its error as `None`: the empty
      string, any character other than an ASCII digit, and a value past
      2^64 - 1 are errors. */
  function ParseUint(s: string): (r: Option<nat>)
    ensures r.None? <==> |s| == 0 || (exists i :: 0 <= i < |s| && !IsDigit(s[i])) || Value(s) > MaxUint64
    ensures r.Some? ==> r.value <= MaxUint64
  {
    if |s| > 0 && AllDigits(s) && Value(s) <= MaxUint64 then Some(Value(s)) else None
  }

  /** The canonical decimal rendering of a number (`strconv.FormatUint(n, 10)`):
      digits only, and no leading zero unless the number is zero. */
  function Format(n: nat): (s: string)
    ensures |s| > 0 && AllDigits(s)
    ensures s[0] == '0' <==> n == 0
    decreases n
  {
    if n < 10 then [DigitChar(n)] else Format(n / 10) + [DigitChar(n % 10)]
  }

  /** `s` is `t` preceded by zero or more '0' characters. */
  predicate ZeroPadded(s: string, t: string) {
    && |t| <= |s|
    && s[|s| - |t|..] == t
    && (forall i :: 0 <= i < |s| - |t| ==> s[i] == '0')
  }

  /** Reading back a rendered number gives the number. */
  lemma {:induction false} ValueOfFormat(n: nat)
    ensures Value(Format(n)) == n
    decreases n
  {
    if n >= 10 {
      var s := Format(n);
      assert s[..|s| - 1] == Format(n / 10);
      ValueOfFormat(n / 10);
    }
  }

  /** Every uint64 survives a render-then-parse round trip. */
  lemma ParseFormat(n: nat)
    requires n <= MaxUint64
    ensures ParseUint(Format(n)) == Some(n)
  {
    ValueOfFormat(n);
  }

  /** A digit string whose value is zero consists of zeros only. */
  lemma {:induction false} ZeroValueIsZeros(s: string)
    requires AllDigits(s) && Value(s) == 0
    ensures forall i :: 0 <= i < |s| ==> s[i] == '0'
  {
    if |s| > 0 {
      ZeroValueIsZeros(s[..|s| - 1]);
      forall i | 0 <= i < |s| ensures s[i] == '0' {
        if i < |s| - 1 {
          assert s[i] == s[..|s| - 1][i];
        }
      }
    }
  }

  /** Every digit string is the canonical rendering of its value, padded on
      the left with zeros. */
  lemma {:induction false} DigitsAreZeroPaddedFormat(s: string)
    requires |s| > 0 && AllDigits(s)
    ensures ZeroPadded(s, Format(Value(s)))
    decreases |s|
  {
    var p := s[..|s| - 1];
    var c := s[|s| - 1];
    var d := DigitValue(c);
    assert s == p + [c];
    assert DigitChar(d) == c;
    if Value(p) == 0 {
      ZeroValueIsZeros(p);
      assert Format(Value(s)) == [c];
    } else {
      DigitsAreZeroPaddedFormat(p);
      var n := Value(s);
      assert n / 10 == Value(p) && n % 10 == d;
      var f := Format(Value(p));
      assert Format(n) == f + [c];
      assert s[|s| - |f| - 1..] == p[|p| - |f|..] + [c];
      forall i | 0 <= i < |s| - |f| - 1 ensures s[i] == '0' {
        assert s[i] == p[i];
      }
    }
  }

  /** Whatever `ParseUint` accepts is the canonical rendering of its result,
      padded on the left with zeros: parsing is the inverse of `Format` up to
      leading zeros. */
  lemma ParseIsCanonical(s: string, n: nat)
    requires ParseUint(s) == Some(n)
    ensures ZeroPadded(s, Format(n))
    ensures n <= MaxUint64
  {
    DigitsAreZeroPaddedFormat(s);
  }

  /** The value of a prefix never exceeds the value of the whole string. */
  lemma {:induction false} PrefixValueBound(s: string, j: nat)
    requires AllDigits(s) && j <= |s|
    ensures Value(s[..j]) <= Value(s)
    decreases |s|
  {
    if j < |s| {
      var p := s[..|s| - 1];
      assert p[..j] == s[..j];
      PrefixValueBound(p, j);
    } else {
      assert s[..j] == s;
    }
  }

  /** The digit loop of `strconv.ParseUint` for base 10 and a 64-bit result,
      in uint64 arithmetic: a non-digit is a syntax error; a value already at
      `MaxUint64 / 10 + 1` would overflow when multiplied by 10; and an
      addition that wraps past 2^64 is caught by the result dropping below its
      operand. It agrees with `ParseUint` on every string. */
  method ParseUint64(s: string) returns (r: Option<nat>)
    ensures r == ParseUint(s)
  {
    if |s| == 0 {
      return None;
    }
    var cutoff := MaxUint64 / 10 + 1;
    var n: nat := 0;
    var i := 0;
    while i < |s|
      invariant 0 <= i <= |s|
      invariant AllDigits(s[..i]) && n == Value(s[..i]) && n <= MaxUint64
    {
      var c := s[i];
      if !IsDigit(c) {
        return None;
      }
      assert s[..i + 1] == s[..i] + [c];
      assert AllDigits(s[..i + 1]);
      assert s[..i + 1][..i] == s[..i];
      if n >= cutoff {
        if AllDigits(s) {
          PrefixValueBound(s, i + 1);
        }
        return None;
      }
      var tens := n * 10;
      var sum := (tens + DigitValue(c)) % Modulus;
      if sum < tens {
        if AllDigits(s) {
          PrefixValueBound(s, i + 1);
        }
        return None;
      }
      n := sum;
      i := i + 1;
    }
    assert s[..i] == s;
    return Some(n);
  }
}

=== FILE: handler.dfy ===
/** The transport adapter: each HTTP handler decodes its input, calls one
    service operation, and turns the outcome into a status code and a JSON
    body. The `Respond` functions are the error-to-response mapping of each
    handler; the functions named after the handlers compose body decoding,
    the service and that mapping, threading the table through. */
module Handler {
  import opened Models
  import opened Decimal
  import Repository
  import Service

  const StatusOK: nat := 200
  const StatusCreated: nat := 201
  const StatusBadRequest: nat := 400
  const StatusNotFound: nat := 404
  const StatusInternalServerError: nat := 500

  /** The fixed messages the handlers send instead of an error's own text.
      The create message keeps the source's spelling. */
  const InvalidBodyMessage: string := "Invalid request body"
  const CreateFailedMessage: string := "Uknown error occured while creating the task"
  const GetFailedMessage: string := "Unknown error occurred while getting the task"
  const UpdateFailedMessage: string := "Unknown error occurred while updating the task"
  const DeleteFailedMessage: string := "Unknown error occurred while deleting the task"
  const ListFailedMessage: string := "Unknown error occurred while listing the tasks"

  /** A response body: `{"error": ...}`, one of the success payloads, or the
      bare status line of `SendStatus`. */
  datatype Body =
    | ErrorBody(error: string)
    | Created(created: Service.CreateTaskResponse)
    | OneTask(task: Task)
    | TaskList(tasks: seq<Task>)
    | NoBody

  datatype Response = Response(code: nat, body: Body)

  /** The outcome of decoding a request body. */
  datatype Decoded<+T> = Malformed | Decoded(value: T)

  /** A response together with the table after the request. */
  datatype Exchange = Exchange(response: Response, store: Repository.Store)

  /** The error-to-code table the handlers' API annotations document: 400 for
      a malformed id, page, limit or update input, 404 for a missing task,
      500 for anything else. */
  function DocumentedCode(e: ErrorKind): nat {
    match e
    case FailedToParseID => StatusBadRequest
    case FailedToParsePage => StatusBadRequest
    case FailedToParseLimit => StatusBadRequest
    case InvalidStatus => StatusBadRequest
    case NotFound => StatusNotFound
    case Internal(_) => StatusInternalServerError
  }

  /** Create: success is 201 with the service's response; every service
      error is 400 with a fixed message. */
  function RespondCreate(r: Result<Service.CreateTaskResponse>): (resp: Response)
    ensures resp.code == StatusCreated <==> r.Ok?
    ensures resp.code == StatusBadRequest <==> r.Err?
    ensures r.Ok? ==> resp.body == Created(r.value)
    ensures r.Err? ==> resp.body == ErrorBody(CreateFailedMessage)
  {
    match r
    case Ok(v) => Response(StatusCreated, Created(v))
    case Err(_) => Response(StatusBadRequest, ErrorBody(CreateFailedMessage))
  }

  /** Read one: a malformed id is 400 and a missing task 404, both with the
      error's own message; anything else is 500 with a fixed message. */
  function RespondGetTaskByID(r: Result<Task>): (resp: Response)
    ensures resp.code == StatusOK <==> r.Ok?
    ensures resp.code == StatusBadRequest <==> r == Err(FailedToParseID)
    ensures resp.code == StatusNotFound <==> r == Err(NotFound)
    ensures resp.code == StatusInternalServerError <==>
      r.Err? && r.error != FailedToParseID && r.error != NotFound
    ensures r.Ok? ==> resp.body == OneTask(r.value)
    ensures resp.code == StatusBadRequest || resp.code == StatusNotFound ==>
      resp.body == ErrorBody(Message(r.error))
    ensures resp.code == StatusInternalServerError ==> resp.body == ErrorBody(GetFailedMessage)
  {
    match r
    case Ok(t) => Response(StatusOK, OneTask(t))
    case Err(FailedToParseID) => Response(StatusBadRequest, ErrorBody(Message(FailedToParseID)))
    case Err(NotFound) => Response(StatusNotFound, ErrorBody(Message(NotFound)))
    case Err(_) => Response(StatusInternalServerError, ErrorBody(GetFailedMessage))
  }

  /** Update: as read-one, with no case for an invalid status, which
      therefore falls to 500. */
  function RespondUpdate(r: Result<()>): (resp: Response)
    ensures resp.code == StatusOK <==> r.Ok?
    ensures resp.code == StatusBadRequest <==> r == Err(FailedToParseID)
    ensures resp.code == StatusNotFound <==> r == Err(NotFound)
    ensures resp.code == StatusInternalServerError <==>
      r.Err? && r.error != FailedToParseID && r.error != NotFound
    ensures r.Ok? ==> resp.body == NoBody
    ensures resp.code == StatusBadRequest || resp.code == StatusNotFound ==>
      resp.body == ErrorBody(Message(r.error))
    ensures resp.code == StatusInternalServerError ==> resp.body == ErrorBody(UpdateFailedMessage)
  {
    match r
    case Ok(_) => Response(StatusOK, NoBody)
    case Err(FailedToParseID) => Response(StatusBadRequest, ErrorBody(Message(FailedToParseID)))
    case Err(NotFound) => Response(StatusNotFound, ErrorBody(Message(NotFound)))
    case Err(_) => Response(StatusInternalServerError, ErrorBody(UpdateFailedMessage))
  }

  /** Delete: the read-one mapping, with its own fixed message. */
  function RespondDelete(r: Result<()>): (resp: Response)
    ensures resp.code == StatusOK <==> r.Ok?
    ensures resp.code == StatusBadRequest <==> r == Err(FailedToParseID)
    ensures resp.code == StatusNotFound <==> r == Err(NotFound)
    ensures resp.code == StatusInternalServerError <==>
      r.Err? && r.error != FailedToParseID && r.error != NotFound
    ensures r.Ok? ==> resp.body == NoBody
    ensures resp.code == StatusBadRequest || resp.code == StatusNotFound ==>
      resp.body == ErrorBody(Message(r.error))
    ensures resp.code == StatusInternalServerError ==> resp.body == ErrorBody(DeleteFailedMessage)
  {
    match r
    case Ok(_) => Response(StatusOK, NoBody)
    case Err(FailedToParseID) => Response(StatusBadRequest, ErrorBody(Message(FailedToParseID)))
    case Err(NotFound) => Response(StatusNotFound, ErrorBody(Message(NotFound)))
    case Err(_) => Response(StatusInternalServerError, ErrorBody(DeleteFailedMessage))
  }

  /** List: a malformed page or limit is 400 and an empty page 404, both with
      the error's own message; anything else is 500 with a fixed message. */
  function RespondGetTasks(r: Result<seq<Task>>): (resp: Response)
    ensures resp.code == StatusOK <==> r.Ok?
    ensures resp.code == StatusBadRequest <==> r == Err(FailedToParsePage) || r == Err(FailedToParseLimit)
    ensures resp.code == StatusNotFound <==> r == Err(NotFound)
    ensures resp.code == StatusInternalServerError <==>
      r.Err? && r.error !in {FailedToParsePage, FailedToParseLimit, NotFound}
    ensures r.Ok? ==> resp.body == TaskList(r.value)
    ensures resp.code == StatusBadRequest || resp.code == StatusNotFound ==>
      resp.body == ErrorBody(Message(r.error))
    ensures resp.code == StatusInternalServerError ==> resp.body == ErrorBody(ListFailedMessage)
  {
    match r
    case Ok(ts) => Response(StatusOK, TaskList(ts))
    case Err(FailedToParsePage) => Response(StatusBadRequest, ErrorBody(Message(FailedToParsePage)))
    case Err(FailedToParseLimit) => Response(StatusBadRequest, ErrorBody(Message(FailedToParseLimit)))
    case Err(NotFound) => Response(StatusNotFound, ErrorBody(Message(NotFound)))
    case Err(_) => Response(StatusInternalServerError, ErrorBody(ListFailedMessage))
  }

  /** POST /tasks. A body that does not decode is 400 and never reaches the
      service. */
  function CreateTask(s: Repository.Store, body: Decoded<Service.CreateTaskRequest>, now: nat, dbNow: nat,
                      failure: Option<string>): (x: Exchange)
    requires Repository.Valid(s)
    ensures Repository.Valid(x.store)
    ensures body.Malformed? ==> x == Exchange(Response(StatusBadRequest, ErrorBody(InvalidBodyMessage)), s)
    ensures x.response.code == StatusCreated <==> body.Decoded? && failure.None?
    ensures x.response.code != StatusCreated ==> x.response.code == StatusBadRequest && x.store == s
    ensures x.response.code == StatusCreated ==>
      && x.response.body.Created?
      && x.response.body.created.status == Service.StatusNew
      && x.response.body.created.createdAt == now
      && x.response.body.created.id !in s.rows
      && s.nextId <= x.response.body.created.id < x.store.nextId
      && x.store.rows.Keys == s.rows.Keys + {x.response.body.created.id}
      && x.store.rows[x.response.body.created.id]
           == Task(x.response.body.created.id, body.value.title, body.value.description, Service.StatusNew, now, dbNow)
      && (forall k :: k in s.rows ==> x.store.rows[k] == s.rows[k])
  {
    match body
    case Malformed => Exchange(Response(StatusBadRequest, ErrorBody(InvalidBodyMessage)), s)
    case Decoded(req) =>
      var o := Service.CreateTask(s, req, now, dbNow, failure);
      Exchange(RespondCreate(o.result), o.store)
  }

  /** GET /tasks/{id}. */
  function GetTaskByID(s: Repository.Store, idStr: string, failure: Option<string>): (resp: Response)
    ensures resp.code == StatusBadRequest <==> ParseUint(idStr).None?
    ensures resp.code == StatusNotFound <==>
      ParseUint(idStr).Some? && failure.None? && ParseUint(idStr).value !in s.rows
    ensures resp.code == StatusInternalServerError <==> ParseUint(idStr).Some? && failure.Some?
    ensures resp.code == StatusOK ==>
      ParseUint(idStr).Some? && ParseUint(idStr).value in s.rows
      && resp.body == OneTask(s.rows[ParseUint(idStr).value])
    ensures ParseUint(idStr).Some? && failure.None? && ParseUint(idStr).value in s.rows ==>
      resp == Response(StatusOK, OneTask(s.rows[ParseUint(idStr).value]))
  {
    RespondGetTaskByID(Service.GetTaskByID(s, idStr, failure))
  }

  /** PUT /tasks/{id}. A body that does not decode is 400 and never reaches
      the service. */
  function UpdateTask(s: Repository.Store, idStr: string, body: Decoded<Service.UpdateTaskRequest>, now: nat,
                      failure: Option<string>): (x: Exchange)
    ensures body.Malformed? ==> x == Exchange(Response(StatusBadRequest, ErrorBody(InvalidBodyMessage)), s)
    ensures x.response.code == StatusBadRequest <==> body.Malformed? || ParseUint(idStr).None?
    ensures x.response.code == StatusInternalServerError <==>
      body.Decoded? && ParseUint(idStr).Some? && (!Service.IsValidStatus(body.value.status) || failure.Some?)
    ensures x.response.code == StatusNotFound <==>
      && body.Decoded? && ParseUint(idStr).Some? && Service.IsValidStatus(body.value.status)
      && failure.None? && ParseUint(idStr).value !in s.rows
    ensures x.response.code != StatusOK ==> x.store == s
    ensures x.store.nextId == s.nextId
    ensures Repository.Valid(s) ==> Repository.Valid(x.store)
    ensures x.response.code == StatusOK ==>
      var id := ParseUint(idStr).value;
      && ParseUint(idStr).Some?
      && id in s.rows
      && x.store.rows == s.rows[id := s.rows[id].(title := body.value.title, description := body.value.description,
                                                    status := body.value.status, updatedAt := now)]
    ensures body.Decoded? && ParseUint(idStr).Some? && Service.IsValidStatus(body.value.status)
            && failure.None? && ParseUint(idStr).value in s.rows ==>
      x.response == Response(StatusOK, NoBody)
  {
    match body
    case Malformed => Exchange(Response(StatusBadRequest, ErrorBody(InvalidBodyMessage)), s)
    case Decoded(req) =>
      var o := Service.UpdateTask(s, idStr, req, now, failure);
      Exchange(RespondUpdate(o.result), o.store)
  }

  /** DELETE /tasks/{id}. */
  function DeleteTask(s: Repository.Store, idStr: string, failure: Option<string>): (x: Exchange)
    ensures x.response.code == StatusBadRequest <==> ParseUint(idStr).None?
    ensures x.response.code == StatusNotFound <==>
      ParseUint(idStr).Some? && failure.None? && ParseUint(idStr).value !in s.rows
    ensures x.response.code == StatusInternalServerError <==> ParseUint(idStr).Some? && failure.Some?
    ensures x.response.code != StatusOK ==> x.store == s
    ensures x.store.nextId == s.nextId
    ensures Repository.Valid(s) ==> Repository.Valid(x.store)
    ensures x.response.code == StatusOK ==>
      ParseUint(idStr).Some? && x.store.rows == s.rows - {ParseUint(idStr).value}
    ensures ParseUint(idStr).Some? && failure.None? && ParseUint(idStr).value in s.rows ==>
      x.response == Response(StatusOK, NoBody)
  {
    var o := Service.DeleteTask(s, idStr, failure);
    Exchange(RespondDelete(o.result), o.store)
  }

  /** GET /tasks?page=&limit=. */
  function GetTasks(s: Repository.Store, pageStr: string, limitStr: string, failure: Option<string>,
                    cut: Option<Repository.Interruption>): (resp: Response)
    requires Repository.Valid(s)
    ensures resp.code == StatusBadRequest <==>
      Service.QueryValue(pageStr).None? || Service.QueryValue(limitStr).None?
    ensures resp.code == StatusInternalServerError <==>
      && Service.Accepted(pageStr, limitStr)
      && (failure.Some? || Repository.Breaks(cut, Service.RequestedSize(|s.rows|, pageStr, limitStr)))
    ensures resp.code == StatusNotFound <==>
      Service.Accepted(pageStr, limitStr) && failure.None? && Service.RequestedOffset(pageStr, limitStr) >= |s.rows|
    ensures resp.code == StatusOK <==>
      && Service.Accepted(pageStr, limitStr) && failure.None?
      && !Repository.Breaks(cut, Service.RequestedSize(|s.rows|, pageStr, limitStr))
      && Service.RequestedOffset(pageStr, limitStr) < |s.rows|
    ensures resp.code == StatusOK ==>
      && resp.body.TaskList?
      && Service.Accepted(pageStr, limitStr)
      && |resp.body.tasks| == Service.RequestedSize(|s.rows|, pageStr, limitStr)
      && 0 < |resp.body.tasks| <= Service.Requested(pageStr, limitStr).limit
      && (forall i :: 0 <= i < |resp.body.tasks| ==>
            Repository.Rank(s, resp.body.tasks[i].id) == Service.RequestedOffset(pageStr, limitStr) + i)
      && (forall i :: 0 <= i < |resp.body.tasks| ==>
            resp.body.tasks[i].id in s.rows && s.rows[resp.body.tasks[i].id] == resp.body.tasks[i])
      && (forall i, j :: 0 <= i < j < |resp.body.tasks| ==> resp.body.tasks[i].id > resp.body.tasks[j].id)
  {
    RespondGetTasks(Service.GetTasks(s, pageStr, limitStr, failure, cut))
  }

  /** Read-one, delete and list answer every error their service can
      produce with the code their API annotations document. */
  lemma ReadDeleteListMatchAnnotations(e: ErrorKind)
    ensures e == FailedToParseID || e == NotFound || e.Internal? ==>
      RespondGetTaskByID(Err(e)).code == DocumentedCode(e)
      && RespondDelete(Err(e)).code == DocumentedCode(e)
    ensures e == FailedToParsePage || e == FailedToParseLimit || e == NotFound || e.Internal? ==>
      RespondGetTasks(Err(e)).code == DocumentedCode(e)
  {
  }

  /** Of the errors its service can produce, update answers all but an
      invalid status with the code its API annotation documents; an invalid
      status ("Invalid input", 400 in the annotation) gets 500. */
  lemma UpdateMatchesAnnotationsExceptStatus(e: ErrorKind)
    ensures e == FailedToParseID || e == NotFound || e.Internal? ==>
      RespondUpdate(Err(e)).code == DocumentedCode(e)
    ensures RespondUpdate(Err(InvalidStatus)).code == StatusInternalServerError
    ensures DocumentedCode(InvalidStatus) == StatusBadRequest
  {
  }

  /** Create answers a storage failure with 400, where its API annotation
      documents 500. */
  lemma CreateDepartsFromAnnotation(message: string)
    ensures RespondCreate(Err(Internal(message))).code == StatusBadRequest
    ensures DocumentedCode(Internal(message)) == StatusInternalServerError
  {
  }

  /** The text of an unclassified error never reaches the client: two such
      errors give the same response. */
  lemma InternalErrorsAreOpaque(m1: string, m2: string)
    ensures RespondCreate(Err(Internal(m1))) == RespondCreate(Err(Internal(m2)))
    ensures RespondGetTaskByID(Err(Internal(m1))) == RespondGetTaskByID(Err(Internal(m2)))
    ensures RespondUpdate(Err(Internal(m1))) == RespondUpdate(Err(Internal(m2)))
    ensures RespondDelete(Err(Internal(m1))) == RespondDelete(Err(Internal(m2)))
    ensures RespondGetTasks(Err(Internal(m1))) == RespondGetTasks(Err(Internal(m2)))
  {
  }

  /** Create "A"/"B" on an empty table, read it back, try to set status
      "bogus" (refused with 500 and no change), delete it, and read it again
      (404). */
  lemma LifecycleScenario(now: nat, dbNow: nat, later: nat)
    ensures
      var created := CreateTask(Repository.Empty, Decoded(Service.CreateTaskRequest("A", "B")), now, dbNow, None);
      && created.response == Response(StatusCreated, Created(Service.CreateTaskResponse(1, "new", now)))
      && GetTaskByID(created.store, "1", None) == Response(StatusOK, OneTask(Task(1, "A", "B", "new", now, dbNow)))
      && var bogus := UpdateTask(created.store, "1", Decoded(Service.UpdateTaskRequest(1, "A", "B", "bogus")), later, None);
      && bogus.response == Response(StatusInternalServerError, ErrorBody(UpdateFailedMessage))
      && bogus.store == created.store
      && var deleted := DeleteTask(created.store, "1", None);
      && deleted.response == Response(StatusOK, NoBody)
      && GetTaskByID(deleted.store, "1", None) == Response(StatusNotFound, ErrorBody("nothing was found"))
  {
    assert ParseUint("1") == Some(1);
    assert !Service.IsValidStatus("bogus");
  }
}

=== FILE: models.dfy ===
/** The domain types every layer of the task service shares: the task record,
    the error kinds that travel back up the pipeline, and the wrappers that carry
    either a value or one of those errors. */
module Models {

  /** An optional value, used for a parse that may fail and for a storage
      failure that may or may not happen. */
  datatype Option<+T> = None | Some(value: T)

  /** The errors the pipeline tells apart. The first four are the sentinel
      errors of the models package. `InvalidStatus` is the error the service
      returns for an unknown status; the models package never declares it, so
      it is added here as a fifth sentinel. `Internal` stands for every other
      error (driver, connection, deadline), compared by identity like any Go
      error, so an `Internal` is never one of the sentinels whatever its text. */
  datatype ErrorKind =
    | FailedToParsePage
    | FailedToParseLimit
    | FailedToParseID
    | NotFound
    | InvalidStatus
    | Internal(message: string)

  /** The text `err.Error()` yields for each error. The message of
      `InvalidStatus` is not fixed by the source (the sentinel is never
      declared); no response body ever carries it. */
  function Message(e: ErrorKind): (m: string)
    ensures e.Internal? ==> m == e.message
    ensures !e.Internal? ==> |m| > 0
  {
    match e
    case FailedToParsePage => "page number is invalid"
    case FailedToParseLimit => "limit number is invalid"
    case FailedToParseID => "task id is invalid"
    case NotFound => "nothing was found"
    case InvalidStatus => "status is invalid"
    case Internal(m) => m
  }

  /** The sentinels can be told apart by their text alone: no two of them
      share a message. */
  lemma SentinelMessagesDistinct(a: ErrorKind, b: ErrorKind)
    requires !a.Internal? && !b.Internal? && a != b
    ensures Message(a) != Message(b)
  {
  }

  /** A result that either carries a value or the error that replaced it. */
  datatype Result<+T> = Ok(value: T) | Err(error: ErrorKind)

  /** One row of the tasks table. Timestamps are opaque clock readings. */
  datatype Task = Task(
    id: nat,
    title: string,
    description: string,
    status: string,
    createdAt: nat,
    updatedAt: nat
  )
}

=== FILE: repository.dfy ===
/** The persistence gateway: the five statements the repository runs against
    the tasks table, over an abstract table instead of SQL. Each statement is
    atomic; a lower-level failure of the statement (connection, deadline,
    constraint) is an input `failure`, and when present the statement changes
    nothing and its error is handed back unchanged. The paged select also
    takes the point `cut` at which its row stream may break; the repository
    as written drops that error (`GetTasksAsWritten`), the model reports it
    (`GetTasks`). */
module Repository {
  import opened Models

  /** The tasks table: its rows by id, and the id sequence that numbers the
      next inserted row. */
  datatype Store = Store(rows: map<nat, Task>, nextId: nat)

  /** The table before any insert; the id sequence starts at 1. */
  const Empty: Store := Store(map[], 1)

  /** Every row is filed under its own id, and the sequence is ahead of every
      id in use. */
  predicate Valid(s: Store) {
    forall id :: id in s.rows ==> s.rows[id].id == id && id < s.nextId
  }

  /** The table invariant holds before the first statement. */
  lemma EmptyIsValid()
    ensures Valid(Empty) && |Empty.rows| == 0
  {
  }

  /** What a statement returns, and the table after it. */
  datatype Outcome<+T> = Outcome(result: Result<T>, store: Store)

  /** `INSERT INTO tasks (title, description, status, created_at) ... RETURNING id`.
      Only those four fields of `task` are written; the id comes from the
      sequence and `updated_at` from the column default, the database clock
      `dbNow`. */
  function CreateTask(s: Store, task: Task, dbNow: nat, failure: Option<string>): (o: Outcome<nat>)
    requires Valid(s)
    ensures Valid(o.store)
    ensures failure.Some? ==> o == Outcome(Err(Internal(failure.value)), s)
    ensures failure.None? ==> o.result.Ok? && o.result.value !in s.rows
    ensures failure.None? ==>
      var id := o.result.value;
      && s.nextId <= id < o.store.nextId
      && o.store.rows.Keys == s.rows.Keys + {id}
      && o.store.rows[id] == Task(id, task.title, task.description, task.status, task.createdAt, dbNow)
      && (forall k :: k in s.rows ==> o.store.rows[k] == s.rows[k])
  {
    if failure.Some? then
      Outcome(Err(Internal(failure.value)), s)
    else
      var id := s.nextId;
      var row := Task(id, task.title, task.description, task.status, task.createdAt, dbNow);
      Outcome(Ok(id), Store(s.rows[id := row], id + 1))
  }

  /** `SELECT ... WHERE id = $1 LIMIT 1`; no row is `NotFound`. */
  function GetTaskByID(s: Store, id: nat, failure: Option<string>): (r: Result<Task>)
    ensures failure.Some? ==> r == Err(Internal(failure.value))
    ensures failure.None? ==> (r.Ok? <==> id in s.rows)
    ensures r.Ok? ==> id in s.rows && r.value == s.rows[id]
    ensures failure.None? && id !in s.rows ==> r == Err(NotFound)
  {
    if failure.Some? then Err(Internal(failure.value))
    else if id in s.rows then Ok(s.rows[id])
    else Err(NotFound)
  }

  /** `DELETE FROM tasks WHERE id = $1`; zero rows affected is `NotFound`. */
  function DeleteTask(s: Store, id: nat, failure: Option<string>): (o: Outcome<()>)
    ensures Valid(s) ==> Valid(o.store)
    ensures o.result.Err? ==> o.store == s
    ensures failure.Some? ==> o.result == Err(Internal(failure.value))
    ensures failure.None? ==> (o.result.Ok? <==> id in s.rows)
    ensures failure.None? && id !in s.rows ==> o.result == Err(NotFound)
    ensures o.result.Ok? ==> o.store.rows == s.rows - {id} && o.store.nextId == s.nextId
  {
    if failure.Some? then Outcome(Err(Internal(failure.value)), s)
    else if id in s.rows then Outcome(Ok(()), s.(rows := s.rows - {id}))
    else Outcome(Err(NotFound), s)
  }

  /** `UPDATE tasks SET title, description, status, updated_at WHERE id = $1`
      with those four fields taken from `task`; zero rows affected is
      `NotFound`. */
  function UpdateTask(s: Store, id: nat, task: Task, failure: Option<string>): (o: Outcome<()>)
    ensures Valid(s) ==> Valid(o.store)
    ensures o.result.Err? ==> o.store == s
    ensures failure.Some? ==> o.result == Err(Internal(failure.value))
    ensures failure.None? ==> (o.result.Ok? <==> id in s.rows)
    ensures failure.None? && id !in s.rows ==> o.result == Err(NotFound)
    ensures o.result.Ok? ==>
      && id in s.rows
      && o.store.nextId == s.nextId
      && o.store.rows.Keys == s.rows.Keys
      && o.store.rows[id].id == s.rows[id].id
      && o.store.rows[id].createdAt == s.rows[id].createdAt
      && o.store.rows[id].title == task.title
      && o.store.rows[id].description == task.description
      && o.store.rows[id].status == task.status
      && o.store.rows[id].updatedAt == task.updatedAt
      && (forall k :: k in s.rows && k != id ==> o.store.rows[k] == s.rows[k])
  {
    if failure.Some? then Outcome(Err(Internal(failure.value)), s)
    else if id in s.rows then
      var row := s.rows[id];
      var row' := row.(title := task.title, description := task.description,
                       status := task.status, updatedAt := task.updatedAt);
      Outcome(Ok(()), s.(rows := s.rows[id := row']))
    else Outcome(Err(NotFound), s)
  }

  predicate StrictlyDecreasing(q: seq<nat>) {
    forall i, j :: 0 <= i < j < |q| ==> q[i] > q[j]
  }

  /** The ids of `rows` below `n`, largest first: the order of a descending
      scan of the primary key. */
  function IdsBelow(rows: map<nat, Task>, n: nat): (ids: seq<nat>)
    ensures StrictlyDecreasing(ids)
    ensures forall k :: k in ids <==> k in rows && k < n
    ensures forall i :: 0 <= i < |ids| ==> ids[i] < n
    decreases n
  {
    if n == 0 then []
    else
      var rest := IdsBelow(rows, n - 1);
      if n - 1 in rows then [n - 1] + rest else rest
  }

  /** Every id of a valid table, in `ORDER BY id DESC` order. */
  function Descending(s: Store): (ids: seq<nat>)
    requires Valid(s)
    ensures StrictlyDecreasing(ids)
    ensures forall k :: k in ids <==> k in s.rows
  {
    IdsBelow(s.rows, s.nextId)
  }

  /** `LIMIT limit OFFSET offset` applied to an ordered list of ids. */
  function Window(ids: seq<nat>, limit: nat, offset: nat): (w: seq<nat>)
    ensures |w| <= limit
    ensures offset >= |ids| ==> w == []
    ensures offset < |ids| ==> |w| == (if offset + limit < |ids| then limit else |ids| - offset)
    ensures forall i :: 0 <= i < |w| ==> offset + i < |ids| && w[i] == ids[offset + i]
  {
    var from := if offset < |ids| then offset else |ids|;
    var to := if offset + limit < |ids| then offset + limit else |ids|;
    ids[from..to]
  }

  /** The rows filed under `ids`, in the same order. */
  function RowsOf(rows: map<nat, Task>, ids: seq<nat>): (ts: seq<Task>)
    requires forall k :: k in ids ==> k in rows
    ensures |ts| == |ids|
    ensures forall i :: 0 <= i < |ids| ==> ts[i] == rows[ids[i]]
  {
    seq(|ids|, i requires 0 <= i < |ids| => rows[ids[i]])
  }

  /** The row stream of a query breaking with `message` once `after` rows
      have arrived: the request deadline firing, or the connection dropping,
      while the rows are read. */
  datatype Interruption = Interruption(after: nat, message: string)

  /** How many rows `LIMIT limit OFFSET offset` selects from `n` rows. */
  function PageSize(n: nat, limit: nat, offset: nat): (size: nat)
    ensures size <= limit
    ensures size == 0 <==> offset >= n || limit == 0
    ensures offset < n ==> offset + size <= n
  {
    if offset >= n then 0 else if offset + limit < n then limit else n - offset
  }

  /** `cut` ends a stream of `size` rows before its last row has arrived. */
  predicate Breaks(cut: Option<Interruption>, size: nat) {
    cut.Some? && cut.value.after < size
  }

  /** `SELECT ... ORDER BY id DESC LIMIT limit OFFSET offset`; a page without
      rows is `NotFound` rather than an empty list. A failure of the query or
      of a row scan (`failure`), and a stream that breaks before the page is
      complete (`cut`), are both reported, so a page is never partial. */
  function GetTasks(s: Store, limit: nat, offset: nat, failure: Option<string>, cut: Option<Interruption>)
    : (r: Result<seq<Task>>)
    requires Valid(s)
    ensures failure.Some? ==> r == Err(Internal(failure.value))
    ensures failure.None? && Breaks(cut, PageSize(|s.rows|, limit, offset)) ==>
      r == Err(Internal(cut.value.message))
    ensures failure.None? && !Breaks(cut, PageSize(|s.rows|, limit, offset)) ==>
      && (r.Err? <==> offset >= |s.rows| || limit == 0)
      && (r.Err? ==> r.error == NotFound)
    ensures r.Ok? ==> |r.value| == PageSize(|s.rows|, limit, offset) && 0 < |r.value| <= limit
    ensures r.Ok? ==> forall i :: 0 <= i < |r.value| ==> r.value[i].id in s.rows && s.rows[r.value[i].id] == r.value[i]
    ensures r.Ok? ==> forall i, j :: 0 <= i < j < |r.value| ==> r.value[i].id > r.value[j].id
  {
    if failure.Some? then Err(Internal(failure.value))
    else
      DescendingSize(s);
      var page := Window(Descending(s), limit, offset);
      if Breaks(cut, |page|) then Err(Internal(cut.value.message))
      else if |page| == 0 then Err(NotFound)
      else Ok(RowsOf(s.rows, page))
  }

  /** The paged select as the repository writes it: the loop over
      `rows.Next()` simply stops when the stream breaks, `rows.Err()` is
      never consulted, and the rows read so far are the answer. A break is
      never reported: it turns into `NotFound` or into a short page. */
  function GetTasksAsWritten(s: Store, limit: nat, offset: nat, failure: Option<string>, cut: Option<Interruption>)
    : (r: Result<seq<Task>>)
    requires Valid(s)
    ensures failure.Some? ==> r == Err(Internal(failure.value))
    ensures failure.None? && r.Err? ==> r.error == NotFound
    ensures r.Ok? ==> 0 < |r.value| <= PageSize(|s.rows|, limit, offset)
    ensures r.Ok? ==> forall i :: 0 <= i < |r.value| ==> r.value[i].id in s.rows && s.rows[r.value[i].id] == r.value[i]
    ensures r.Ok? ==> forall i, j :: 0 <= i < j < |r.value| ==> r.value[i].id > r.value[j].id
  {
    if failure.Some? then Err(Internal(failure.value))
    else
      DescendingSize(s);
      var page := Window(Descending(s), limit, offset);
      var read := if Breaks(cut, |page|) then page[..cut.value.after] else page;
      if |read| == 0 then Err(NotFound) else Ok(RowsOf(s.rows, read))
  }

  /** The two readings agree whenever the stream is not broken; a break that
      the corrected select reports as a failure is, as written, `NotFound`
      when it comes before the first row and otherwise a page short of
      `PageSize` rows that answers as a success. */
  lemma {:induction false} StreamBreakIsSwallowed(s: Store, limit: nat, offset: nat, cut: Option<Interruption>)
    requires Valid(s)
    ensures !Breaks(cut, PageSize(|s.rows|, limit, offset)) ==>
      GetTasksAsWritten(s, limit, offset, None, cut) == GetTasks(s, limit, offset, None, cut)
    ensures Breaks(cut, PageSize(|s.rows|, limit, offset)) ==>
      var w := GetTasksAsWritten(s, limit, offset, None, cut);
      && GetTasks(s, limit, offset, None, cut) == Err(Internal(cut.value.message))
      && (w == Err(NotFound) <==> cut.value.after == 0)
      && (w.Ok? ==> |w.value| == cut.value.after < PageSize(|s.rows|, limit, offset))
  {
    DescendingSize(s);
    var page := Window(Descending(s), limit, offset);
    assert |page| == PageSize(|s.rows|, limit, offset);
  }

  /** A stream that does not break before the page is complete changes
      nothing: the corrected select then answers as with no break at all, and
      any success it gives is the unbroken page. */
  lemma UnbrokenStreamIsUncut(s: Store, limit: nat, offset: nat, cut: Option<Interruption>)
    requires Valid(s)
    ensures !Breaks(cut, PageSize(|s.rows|, limit, offset)) ==>
      GetTasks(s, limit, offset, None, cut) == GetTasks(s, limit, offset, None, None)
    ensures GetTasks(s, limit, offset, None, cut).Ok? ==>
      GetTasks(s, limit, offset, None, cut) == GetTasks(s, limit, offset, None, None)
  {
    DescendingSize(s);
    assert |Window(Descending(s), limit, offset)| == PageSize(|s.rows|, limit, offset);
  }

  /** A table of two rows read with a stream that breaks after one row: the
      program answers with a one-row page where the full page has two rows,
      and with `NotFound` when the break comes before the first row. */
  lemma ShortPageExample()
    ensures var s := Store(map[1 := Task(1, "a", "", "new", 0, 0), 2 := Task(2, "b", "", "new", 0, 0)], 3);
      && Valid(s)
      && GetTasksAsWritten(s, 10, 0, None, Some(Interruption(1, "conn closed"))) == Ok([s.rows[2]])
      && GetTasksAsWritten(s, 10, 0, None, Some(Interruption(0, "conn closed"))) == Err(NotFound)
      && GetTasks(s, 10, 0, None, Some(Interruption(1, "conn closed"))) == Err(Internal("conn closed"))
      && GetTasks(s, 10, 0, None, None) == Ok([s.rows[2], s.rows[1]])
  {
    var s := Store(map[1 := Task(1, "a", "", "new", 0, 0), 2 := Task(2, "b", "", "new", 0, 0)], 3);
    assert IdsBelow(s.rows, 1) == [];
    assert IdsBelow(s.rows, 2) == [1];
    assert Descending(s) == [2, 1];
    var page := Window([2, 1], 10, 0);
    assert page == [2, 1];
    assert page[..1] == [2];
    assert RowsOf(s.rows, [2]) == [s.rows[2]];
    assert RowsOf(s.rows, page) == [s.rows[2], s.rows[1]];
  }

  /** The number of rows a descending scan passes before reaching `id`: the
      position of `id` in `ORDER BY id DESC`. */
  function Rank(s: Store, id: nat): nat {
    |Above(s, id)|
  }

  /** The ids stored above `id`. */
  function Above(s: Store, id: nat): set<nat> {
    set k | k in s.rows && k > id
  }

  function Elems(q: seq<nat>): set<nat> {
    set x | x in q
  }

  /** A sequence without repetitions has as many distinct elements as entries. */
  lemma {:induction false} DistinctCard(q: seq<nat>)
    requires StrictlyDecreasing(q)
    ensures |Elems(q)| == |q|
  {
    if |q| > 0 {
      DistinctCard(q[1..]);
      assert Elems(q) == {q[0]} + Elems(q[1..]);
      assert q[0] !in Elems(q[1..]);
    }
  }

  /** In a valid table the `j`-th id of the descending order has exactly `j`
      larger ids before it, and the order lists every row. */
  lemma DescendingRank(s: Store, j: nat)
    requires Valid(s)
    requires j < |Descending(s)|
    ensures Rank(s, Descending(s)[j]) == j
  {
    var q := Descending(s);
    var above := Above(s, q[j]);
    forall k | k in above ensures k in Elems(q[..j]) {
      var i :| 0 <= i < |q| && q[i] == k;
      assert i < j;
      assert q[..j][i] == k;
    }
    forall k | k in Elems(q[..j]) ensures k in above {
      var i :| 0 <= i < j && q[..j][i] == k;
      assert q[i] == k;
    }
    assert above == Elems(q[..j]);
    assert StrictlyDecreasing(q[..j]);
    DistinctCard(q[..j]);
  }

  /** The descending order lists every row of a valid table exactly once. */
  lemma DescendingSize(s: Store)
    requires Valid(s)
    ensures |Descending(s)| == |s.rows|
  {
    var q := Descending(s);
    assert Elems(q) == s.rows.Keys;
    DistinctCard(q);
  }

  /** A successful page holds exactly the rows whose descending position lies
      in `[offset, offset + limit)`, the `i`-th of them at position
      `offset + i`; an empty page (`offset` past the last row, or `limit` 0)
      is `NotFound`. */
  lemma GetTasksIsPage(s: Store, limit: nat, offset: nat)
    requires Valid(s)
    ensures GetTasks(s, limit, offset, None, None).Err? <==> offset >= |s.rows| || limit == 0
    ensures var r := GetTasks(s, limit, offset, None, None);
      r.Ok? ==>
        && |r.value| == (if offset + limit < |s.rows| then limit else |s.rows| - offset)
        && (forall i :: 0 <= i < |r.value| ==> Rank(s, r.value[i].id) == offset + i)
        && (forall id :: id in s.rows && offset <= Rank(s, id) < offset + limit ==>
              s.rows[id] in r.value)
  {
    DescendingSize(s);
    PageRanks(s, limit, offset);
    PageComplete(s, limit, offset);
  }

  /** The `i`-th row of a page sits at descending position `offset + i`. */
  lemma PageRanks(s: Store, limit: nat, offset: nat)
    requires Valid(s)
    ensures var r := GetTasks(s, limit, offset, None, None);
      r.Ok? ==> forall i :: 0 <= i < |r.value| ==> Rank(s, r.value[i].id) == offset + i
  {
    var w := Window(Descending(s), limit, offset);
    var r := GetTasks(s, limit, offset, None, None);
    if r.Ok? {
      assert r.value == RowsOf(s.rows, w);
      forall i | 0 <= i < |r.value| ensures Rank(s, r.value[i].id) == offset + i {
        assert r.value[i].id == Descending(s)[offset + i];
        DescendingRank(s, offset + i);
      }
    }
  }

  /** Every row at a descending position the page covers is on the page. */
  lemma PageComplete(s: Store, limit: nat, offset: nat)
    requires Valid(s)
    ensures var r := GetTasks(s, limit, offset, None, None);
      r.Ok? ==> forall id :: id in s.rows && offset <= Rank(s, id) < offset + limit ==> s.rows[id] in r.value
  {
    var q := Descending(s);
    var w := Window(q, limit, offset);
    var r := GetTasks(s, limit, offset, None, None);
    if r.Ok? {
      assert r.value == RowsOf(s.rows, w);
      DescendingSize(s);
      forall id | id in s.rows && offset <= Rank(s, id) < offset + limit
        ensures s.rows[id] in r.value
      {
        var j :| 0 <= j < |q| && q[j] == id;
        DescendingRank(s, j);
        assert w[j - offset] == id;
        assert r.value[j - offset] == s.rows[id];
      }
    }
  }

  /** An id is never issued twice: create, delete what was created, create
      again, and the second id differs from the first. */
  lemma IdsNeverReissued(s: Store, t1: Task, t2: Task, dbNow: nat)
    requires Valid(s)
    ensures var o1 := CreateTask(s, t1, dbNow, None);
      var d := DeleteTask(o1.store, o1.result.value, None);
      var o2 := CreateTask(d.store, t2, dbNow, None);
      && d.result == Ok(())
      && o2.result.Ok?
      && o2.result.value != o1.result.value
  {
  }

  /** Deleting an id twice: the first succeeds, the second finds nothing. */
  lemma DeleteTwice(s: Store, id: nat)
    requires id in s.rows
    ensures DeleteTask(s, id, None).result == Ok(())
    ensures DeleteTask(DeleteTask(s, id, None).store, id, None).result == Err(NotFound)
  {
  }

  /** An inserted row reads back with the values it was inserted with. */
  lemma CreateThenGet(s: Store, task: Task, dbNow: nat)
    requires Valid(s)
    ensures var o := CreateTask(s, task, dbNow, None);
      GetTaskByID(o.store, o.result.value, None)
        == Ok(Task(o.result.value, task.title, task.description, task.status, task.createdAt, dbNow))
  {
  }

  /** An updated row reads back with the new title, description, status and
      `updated_at`, and its old id and `created_at`. */
  lemma UpdateThenGet(s: Store, id: nat, task: Task)
    requires id in s.rows
    ensures var o := UpdateTask(s, id, task, None);
      GetTaskByID(o.store, id, None)
        == Ok(s.rows[id].(title := task.title, description := task.description,
                           status := task.status, updatedAt := task.updatedAt))
  {
  }
}

=== FILE: service.dfy ===
/** The domain service: parses the path and query strings, applies the status
    and pagination rules, and hands exactly one statement to the repository.
    Every check runs before the repository is touched; a rejected request
    leaves the table as it was, whatever the storage would have done. */
module Service {
  import opened Models
  import opened Decimal
  import Repository

  const StatusNew: string := "new"
  const StatusInProgress: string := "in_progress"
  const StatusDone: string := "done"

  /** The page size a request gets when its limit is unset or 0. */
  const DefaultLimit: nat := 10

  /** The three statuses an update may set, compared exactly (no case
      folding, no trimming). */
  function IsValidStatus(status: string): (valid: bool)
    ensures valid <==> status in {StatusNew, StatusInProgress, StatusDone}
  {
    status == StatusNew || status == StatusInProgress || status == StatusDone
  }

  /** Body of a create request. */
  datatype CreateTaskRequest = CreateTaskRequest(title: string, description: string)

  /** What a successful create reports back. */
  datatype CreateTaskResponse = CreateTaskResponse(id: nat, status: string, createdAt: nat)

  /** Body of an update request; its `id` is decoded but never used. */
  datatype UpdateTaskRequest = UpdateTaskRequest(id: int, title: string, description: string, status: string)

  /** Page number and page size after normalisation. */
  datatype Paging = Paging(page: nat, limit: nat)

  /** Every stored task has one of the three statuses. */
  predicate StatusesValid(s: Repository.Store) {
    forall id :: id in s.rows ==> IsValidStatus(s.rows[id].status)
  }

  /** Inserts a task with status "new" created at `now`, and reports the id
      the table assigned together with that status and time. A storage error
      comes back unchanged. */
  function CreateTask(s: Repository.Store, req: CreateTaskRequest, now: nat, dbNow: nat, failure: Option<string>)
    : (o: Repository.Outcome<CreateTaskResponse>)
    requires Repository.Valid(s)
    ensures Repository.Valid(o.store)
    ensures StatusesValid(s) ==> StatusesValid(o.store)
    ensures failure.Some? ==> o.result == Err(Internal(failure.value)) && o.store == s
    ensures failure.None? ==>
      && o.result.Ok?
      && o.result.value.status == StatusNew
      && o.result.value.createdAt == now
      && o.result.value.id !in s.rows
      && s.nextId <= o.result.value.id < o.store.nextId
      && o.store.rows.Keys == s.rows.Keys + {o.result.value.id}
      && o.store.rows[o.result.value.id]
           == Task(o.result.value.id, req.title, req.description, StatusNew, now, dbNow)
      && (forall k :: k in s.rows ==> o.store.rows[k] == s.rows[k])
  {
    var ins := Repository.CreateTask(s, Task(0, req.title, req.description, StatusNew, now, 0), dbNow, failure);
    match ins.result
    case Ok(id) => Repository.Outcome(Ok(CreateTaskResponse(id, StatusNew, now)), ins.store)
    case Err(e) => Repository.Outcome(Err(e), ins.store)
  }

  /** Parses the id and deletes that task. */
  function DeleteTask(s: Repository.Store, idStr: string, failure: Option<string>): (o: Repository.Outcome<()>)
    ensures Repository.Valid(s) ==> Repository.Valid(o.store)
    ensures StatusesValid(s) ==> StatusesValid(o.store)
    ensures ParseUint(idStr).None? ==> o == Repository.Outcome(Err(FailedToParseID), s)
    ensures o.result == Err(FailedToParseID) ==> ParseUint(idStr).None?
    ensures ParseUint(idStr).Some? && failure.Some? ==> o.result == Err(Internal(failure.value))
    ensures ParseUint(idStr).Some? && failure.None? ==>
      (o.result.Ok? <==> ParseUint(idStr).value in s.rows)
    ensures ParseUint(idStr).Some? && failure.None? && ParseUint(idStr).value !in s.rows ==>
      o.result == Err(NotFound)
    ensures o.result.Ok? ==> o.store.rows == s.rows - {ParseUint(idStr).value}
    ensures o.result.Err? ==> o.store == s
    ensures o.store.nextId == s.nextId
  {
    match ParseUint(idStr)
    case None => Repository.Outcome(Err(FailedToParseID), s)
    case Some(id) => Repository.DeleteTask(s, id, failure)
  }

  /** Parses the id and reads that task. */
  function GetTaskByID(s: Repository.Store, idStr: string, failure: Option<string>): (r: Result<Task>)
    ensures ParseUint(idStr).None? ==> r == Err(FailedToParseID)
    ensures r == Err(FailedToParseID) ==> ParseUint(idStr).None?
    ensures ParseUint(idStr).Some? && failure.Some? ==> r == Err(Internal(failure.value))
    ensures ParseUint(idStr).Some? && failure.None? ==>
      (r.Ok? <==> ParseUint(idStr).value in s.rows)
    ensures ParseUint(idStr).Some? && failure.None? && ParseUint(idStr).value !in s.rows ==>
      r == Err(NotFound)
    ensures r.Ok? ==>
      ParseUint(idStr).Some? && ParseUint(idStr).value in s.rows && r.value == s.rows[ParseUint(idStr).value]
  {
    match ParseUint(idStr)
    case None => Err(FailedToParseID)
    case Some(id) => Repository.GetTaskByID(s, id, failure)
  }

  /** Page 0 reads as page 1 and limit 0 as the default page size; every
      other value is kept. */
  function Normalise(page: nat, limit: nat): (p: Paging)
    ensures p.page >= 1 && p.limit >= 1
    ensures page >= 1 ==> p.page == page
    ensures limit >= 1 ==> p.limit == limit
    ensures page == 0 ==> p.page == 1
    ensures limit == 0 ==> p.limit == DefaultLimit
  {
    Paging(if page < 1 then 1 else page, if limit == 0 then DefaultLimit else limit)
  }

  /** `(page - 1) * limit` in uint64 arithmetic. The page is at least 1, so
      the subtraction cannot wrap; the product wraps modulo 2^64. */
  function Offset(page: nat, limit: nat): (offset: nat)
    requires page >= 1
    ensures offset < Modulus
    ensures (page - 1) * limit < Modulus ==> offset == (page - 1) * limit
  {
    ((page - 1) * limit) % Modulus
  }

  /** The value of an optional query parameter: the empty string is unset and
      reads as 0; anything else must parse. */
  function QueryValue(s: string): (v: Option<nat>)
    ensures s == "" ==> v == Some(0)
    ensures v.None? <==> s != "" && ParseUint(s).None?
    ensures v.Some? ==> v.value <= MaxUint64
    ensures v.Some? && s != "" ==> v == ParseUint(s)
  {
    if s == "" then Some(0) else ParseUint(s)
  }

  /** Both query strings are accepted: each is empty or parses. */
  predicate Accepted(pageStr: string, limitStr: string) {
    QueryValue(pageStr).Some? && QueryValue(limitStr).Some?
  }

  /** The normalised page and limit two accepted query strings ask for. */
  function Requested(pageStr: string, limitStr: string): (p: Paging)
    requires Accepted(pageStr, limitStr)
    ensures p.page >= 1 && p.limit >= 1
  {
    Normalise(QueryValue(pageStr).value, QueryValue(limitStr).value)
  }

  /** The uint64 offset two accepted query strings ask for. */
  function RequestedOffset(pageStr: string, limitStr: string): (offset: nat)
    requires Accepted(pageStr, limitStr)
    ensures offset < Modulus
  {
    Offset(Requested(pageStr, limitStr).page, Requested(pageStr, limitStr).limit)
  }

  /** The number of rows, out of `n`, two accepted query strings select. */
  function RequestedSize(n: nat, pageStr: string, limitStr: string): (size: nat)
    requires Accepted(pageStr, limitStr)
    ensures size <= Requested(pageStr, limitStr).limit
    ensures size == 0 <==> RequestedOffset(pageStr, limitStr) >= n
  {
    Repository.PageSize(n, Requested(pageStr, limitStr).limit, RequestedOffset(pageStr, limitStr))
  }

  /** Parses page then limit, normalises them and fetches that page of the
      table, newest first. */
  function GetTasks(s: Repository.Store, pageStr: string, limitStr: string, failure: Option<string>,
                    cut: Option<Repository.Interruption>)
    : (r: Result<seq<Task>>)
    requires Repository.Valid(s)
    ensures pageStr != "" && ParseUint(pageStr).None? ==> r == Err(FailedToParsePage)
    ensures r == Err(FailedToParsePage) ==> pageStr != "" && ParseUint(pageStr).None?
    ensures r == Err(FailedToParseLimit) <==>
      (pageStr == "" || ParseUint(pageStr).Some?) && limitStr != "" && ParseUint(limitStr).None?
    ensures failure.Some? && QueryValue(pageStr).Some? && QueryValue(limitStr).Some? ==>
      r == Err(Internal(failure.value))
    ensures failure.None? && Accepted(pageStr, limitStr) ==>
      var size := RequestedSize(|s.rows|, pageStr, limitStr);
      && (Repository.Breaks(cut, size) ==> r == Err(Internal(cut.value.message)))
      && (!Repository.Breaks(cut, size) ==>
            && (r.Err? <==> RequestedOffset(pageStr, limitStr) >= |s.rows|)
            && (r.Err? ==> r.error == NotFound))
      && (r.Ok? ==> |r.value| == size)
    ensures r.Ok? ==>
      && Accepted(pageStr, limitStr)
      && forall i :: 0 <= i < |r.value| ==> Repository.Rank(s, r.value[i].id) == RequestedOffset(pageStr, limitStr) + i
    ensures r.Ok? ==> 0 < |r.value| <= MaxUint64
    ensures r.Ok? ==> forall i :: 0 <= i < |r.value| ==> r.value[i].id in s.rows && s.rows[r.value[i].id] == r.value[i]
    ensures r.Ok? ==> forall i, j :: 0 <= i < j < |r.value| ==> r.value[i].id > r.value[j].id
  {
    match QueryValue(pageStr)
    case None => Err(FailedToParsePage)
    case Some(page) =>
      match QueryValue(limitStr)
      case None => Err(FailedToParseLimit)
      case Some(limit) =>
        var p := Normalise(page, limit);
        var offset := Offset(p.page, p.limit);
        Repository.UnbrokenStreamIsUncut(s, p.limit, offset, cut);
        Repository.GetTasksIsPage(s, p.limit, offset);
        Repository.GetTasks(s, p.limit, offset, failure, cut)
  }

  /** Parses the id, checks the status, and overwrites title, description and
      status of that task, stamping `updated_at` with `now`. The id comes from
      the path; the id in the body is ignored. */
  function UpdateTask(s: Repository.Store, idStr: string, req: UpdateTaskRequest, now: nat, failure: Option<string>)
    : (o: Repository.Outcome<()>)
    ensures Repository.Valid(s) ==> Repository.Valid(o.store)
    ensures StatusesValid(s) ==> StatusesValid(o.store)
    ensures ParseUint(idStr).None? ==> o == Repository.Outcome(Err(FailedToParseID), s)
    ensures ParseUint(idStr).Some? && !IsValidStatus(req.status) ==>
      o == Repository.Outcome(Err(InvalidStatus), s)
    ensures o.result == Err(FailedToParseID) ==> ParseUint(idStr).None?
    ensures o.result == Err(InvalidStatus) ==> !IsValidStatus(req.status)
    ensures ParseUint(idStr).Some? && IsValidStatus(req.status) && failure.Some? ==>
      o.result == Err(Internal(failure.value))
    ensures ParseUint(idStr).Some? && IsValidStatus(req.status) && failure.None? ==>
      (o.result.Ok? <==> ParseUint(idStr).value in s.rows)
    ensures ParseUint(idStr).Some? && IsValidStatus(req.status) && failure.None? && ParseUint(idStr).value !in s.rows ==>
      o.result == Err(NotFound)
    ensures o.result.Err? ==> o.store == s
    ensures o.result.Ok? ==>
      var id := ParseUint(idStr).value;
      && ParseUint(idStr).Some?
      && id in s.rows
      && o.store.rows == s.rows[id := s.rows[id].(title := req.title, description := req.description,
                                                    status := req.status, updatedAt := now)]
    ensures o.store.nextId == s.nextId
  {
    match ParseUint(idStr)
    case None => Repository.Outcome(Err(FailedToParseID), s)
    case Some(id) =>
      if !IsValidStatus(req.status) then Repository.Outcome(Err(InvalidStatus), s)
      else Repository.UpdateTask(s, id, Task(id, req.title, req.description, req.status, 0, now), failure)
  }

  /** Normalisation is idempotent: already normal values stay as they are. */
  lemma NormaliseIdempotent(page: nat, limit: nat)
    ensures var p := Normalise(page, limit);
      Normalise(p.page, p.limit) == p
  {
  }

  /** A uint64 page large enough makes the offset wrap: page 2^63 + 1 with
      limit 2 yields offset 0, the first page. */
  lemma OffsetWraps()
    ensures Offset(0x8000_0000_0000_0001, 2) == 0
  {
  }

  /** Unset page and limit mean page 1 of 10 rows; "0" and "" behave alike;
      page 0 with limit 5 is the first 5 rows. */
  lemma GetTasksDefaults(s: Repository.Store, failure: Option<string>, cut: Option<Repository.Interruption>)
    requires Repository.Valid(s)
    ensures GetTasks(s, "", "", failure, cut) == Repository.GetTasks(s, 10, 0, failure, cut)
    ensures GetTasks(s, "", "", failure, cut) == GetTasks(s, "1", "10", failure, cut)
    ensures GetTasks(s, "0", "0", failure, cut) == GetTasks(s, "", "", failure, cut)
    ensures GetTasks(s, "0", "5", failure, cut) == Repository.GetTasks(s, 5, 0, failure, cut)
  {
    assert ParseUint("0") == Some(0);
    assert ParseUint("1") == Some(1);
    assert ParseUint("5") == Some(5);
    assert ParseUint("10") == Some(10) by {
      assert "10"[..1] == "1";
    }
  }

  /** Page `p` of size `l` (both parsed as given, both at least 1, with no
      offset wrap) holds exactly the tasks at descending positions
      `(p - 1) * l` up to `p * l - 1`, in that order. */
  lemma GetTasksReturnsRequestedPage(s: Repository.Store, page: nat, limit: nat)
    requires Repository.Valid(s)
    requires 1 <= page <= MaxUint64 && 1 <= limit <= MaxUint64
    requires (page - 1) * limit < Modulus
    ensures var r := GetTasks(s, Format(page), Format(limit), None, None);
      r.Ok? ==>
        && (forall i :: 0 <= i < |r.value| ==> Repository.Rank(s, r.value[i].id) == (page - 1) * limit + i)
        && (forall id :: id in s.rows && (page - 1) * limit <= Repository.Rank(s, id) < (page - 1) * limit + limit ==>
              s.rows[id] in r.value)
    ensures GetTasks(s, Format(page), Format(limit), None, None) == Err(NotFound) <==> (page - 1) * limit >= |s.rows|
    ensures GetTasks(s, Format(page), Format(limit), None, None).Err? ==>
      GetTasks(s, Format(page), Format(limit), None, None) == Err(NotFound)
  {
    ParseFormat(page);
    ParseFormat(limit);
    var offset := (page - 1) * limit;
    assert Offset(page, limit) == offset;
    assert GetTasks(s, Format(page), Format(limit), None, None) == Repository.GetTasks(s, limit, offset, None, None);
    Repository.GetTasksIsPage(s, limit, offset);
  }

  /** The status check runs only once the id has parsed: a malformed id
      wins over a bad status. */
  lemma IdCheckedBeforeStatus(s: Repository.Store, idStr: string, req: UpdateTaskRequest, now: nat, failure: Option<string>)
    requires ParseUint(idStr).None?
    requires !IsValidStatus(req.status)
    ensures UpdateTask(s, idStr, req, now, failure).result == Err(FailedToParseID)
  {
  }

  /** The id in the update body has no effect on the outcome. */
  lemma UpdateIgnoresBodyId(s: Repository.Store, idStr: string, req: UpdateTaskRequest, other: int, now: nat, failure: Option<string>)
    ensures UpdateTask(s, idStr, req, now, failure) == UpdateTask(s, idStr, req.(id := other), now, failure)
  {
  }

  /** A task created through the service reads back, by the decimal
      rendering of the id it was given, with the title and description it was
      created with, status "new" and creation time `now`. */
  lemma CreateThenGet(s: Repository.Store, req: CreateTaskRequest, now: nat, dbNow: nat)
    requires Repository.Valid(s)
    requires s.nextId <= MaxUint64
    ensures var o := CreateTask(s, req, now, dbNow, None);
      && o.result.Ok?
      && GetTaskByID(o.store, Format(o.result.value.id), None)
           == Ok(Task(o.result.value.id, req.title, req.description, StatusNew, now, dbNow))
  {
    ParseFormat(s.nextId);
  }

  /** Deleting through the service twice by the same id string: success,
      then `NotFound`. */
  lemma DeleteTwice(s: Repository.Store, idStr: string)
    requires ParseUint(idStr).Some? && ParseUint(idStr).value in s.rows
    ensures DeleteTask(s, idStr, None).result == Ok(())
    ensures DeleteTask(DeleteTask(s, idStr, None).store, idStr, None).result == Err(NotFound)
  {
  }
}
